=== FILE: README.md ===
# h2sanlog `FileWriter` in Dafny

h2sanlog's `FileWriter` is an `io.Writer` that logs to a dated file,
`<fileName>.YYYY-MM-DD.log`. `Write` never blocks: it copies the buffer into
a channel of 256 slots, or drops it with the error "chan full, drop" when the
channel is full. Three goroutines do the rest, each under the writer's mutex:

- **flush** takes buffers off the channel and writes them to the open file;
- **rotate** switches to the next day's dated file at midnight;
- **check** runs once a minute. It recreates the active file if an operator
  deleted it. When the file has grown past `maxSize` it does three things:
  - it scans the directory for earlier size-rotated siblings
    (`<path>.full.<n>.log`);
  - it renames the active file to the slot after the highest `n`;
  - it removes the lowest slot once `maxNum` siblings exist.

The model is a sequential state machine: each loop body is one atomic step on
an immutable `FileWriter.State`. The state holds:

- the configuration;
- the active dated path;
- the descriptor, which is attached to a path or detached;
- the channel, as a bounded sequence of byte strings;
- the directory, as a map from path to contents.

Whatever the steps would learn from the clock or the operating system is a
parameter of the step:

- the date the rotate timer fires for;
- whether each open, rename and remove succeeds;
- the names `ioutil.ReadDir` returns.

The model is split into modules, leaves first:

- **Go library functions** the writer relies on, modelled to Go's definitions:
  - `GoStrings`: `strings.Contains`, `Split` and `Join`;
  - `Paths`: `path.Dir` and `path.Base`;
  - `Strconv`: `strconv.Itoa`, and `strconv.Atoi` on a 64-bit `int`. `Atoi`
    is modelled exactly, including its early range error and clamping.
  - `Fmt`: the `%d`, `%4d` and `%02d` verbs.
- **`Naming`**: the two file-name formats.
- **`Scanner`**: the sibling scan.
- **`Fs`**: the four file-system calls, on the map directory.
- **`FileWriter`**: the state and its steps.

## Model

| member | source | states |
|---|---|---|
| Fmt.Padded | file_writer.go:17 | `%4d` right-justifies the decimal form with spaces. The sign counts toward the width. The result is as long as the width or the decimal form, whichever is longer. |
| Fmt.PaddedInjective | file_writer.go:17 | `%4d` prints different numbers differently, at any width and for numbers wider than the field too. |
| Fmt.ZeroPadded | file_writer.go:17 | `%02d` puts zeros between the sign and the digits. A non-negative result is all digits with the same value. A negative one is '-' and digits with the magnitude's value. The result is as long as the width or the decimal form, whichever is longer. |
| Naming.DateStamp | file_writer.go:17 | The `%4d-%02d-%02d` stamp holds no '.' and no '/'. |
| Naming.DateStampLength | file_writer.go:17 | The stamp is ten characters for a valid date with a four-digit year. |
| Naming.DateStampInjective | file_writer.go:17 | For valid dates, different dates give different stamps, whatever the year. |
| Naming.DatedName | file_writer.go:17 | `fmt.Sprintf(logFileNameFormat, fileName, y, m, d)` is `fileName` followed by `Naming.DateSuffix`. It starts with `fileName` and is at least five characters longer. `Naming.DatedNameShape`, `Naming.DatedNameInjective` and `Naming.DatedNamePath` characterise it further. |
| Naming.DateSuffix | file_writer.go:17 | What the format appends to the base name: a dot, the stamp and ".log". It holds no '/'. |
| Naming.DatedNameShape | file_writer.go:42 | The dated name starts with `fileName + "."` and ends with ".log". It is 15 characters longer than `fileName` for a valid four-digit date. |
| Naming.DatedNameInjective | file_writer.go:150 | Each day has its own file. The daily rotation never reopens an earlier day's name. |
| Naming.DatedNamePath | file_writer.go:17 | The dated name keeps the directory of `fileName` and extends its base name. |
| Naming.RotatedName | file_writer.go:111 | `%s.full.%d.log` starts with `filePath + ".full."`, ends with ".log" and differs from `filePath`. |
| Naming.RotatedNameInjective | file_writer.go:129 | Different slot numbers name different files. |
| Naming.RotatedNamePath | file_writer.go:111 | A slot lies in the active file's directory, and its base name extends the active base name. |
| Strconv.Itoa | file_writer.go:111 | `%d` prints the digits of the value, with '-' for a negative number, and never a '.' or '/'. There are no leading zeros: 0 prints as "0", and any other number's first digit is not '0'. |
| Strconv.ParseDigitsValue | file_writer.go:99 | The digit loop yields the numeral's value. It reports a range error exactly when the value exceeds `MaxUint64`. |
| Strconv.ParseDigitsStops | file_writer.go:99 | On a string that is not all digits, the digit loop reports a range error exactly when the digits before the first non-digit exceed `MaxUint64`, and a syntax error otherwise. |
| Strconv.ParseInt | file_writer.go:99 | Success holds exactly for an optionally signed numeral whose value fits int64. A numeral out of range clamps to `MaxInt64` or `MinInt64`. A non-numeral is a range error, clamped by its sign, when its leading digits overflow. Otherwise it is a syntax error, always so below 19 characters. |
| Strconv.Atoi | file_writer.go:99 | With the error dropped, a numeral reads as its value clamped to int64. A non-numeral reads as 0, or as the bound its sign picks when its leading digits overflow. |
| Strconv.AtoiItoa | file_writer.go:99 | `Atoi(Itoa(n)) == n` for every int64 `n`. |
| GoStrings.Split | file_writer.go:97 | Splitting gives at least one field. No field holds the separator, and joining the fields gives back the name. |
| GoStrings.SplitJoin | file_writer.go:97 | Splitting a join of separator-free fields gives back the fields. |
| GoStrings.Contains | file_writer.go:95 | `strings.Contains(name, pattern)`: it holds only when the pattern is no longer than the name. `GoStrings.ContainsOffset` gives the full meaning. |
| GoStrings.ContainsOffset | file_writer.go:95 | `Contains` holds exactly when the pattern occurs in the name at some offset, in both directions. |
| GoStrings.NotContainsMissingChar | file_writer.go:95 | A name cannot contain a pattern that holds a character the name lacks. |
| Paths.Dir | file_writer.go:90 | `path.Dir` of a clean path: "." without any '/', "/" for a name directly under the root, and otherwise the text before the last '/', so that the path is the directory, a '/' and the base name. |
| Paths.Base | file_writer.go:90 | `path.Base` of a clean path: the slash-free tail after the last '/', the whole path when it has no '/', and, when shorter than the path, preceded by a '/'. This is the bare name form that `ioutil.ReadDir` lists. |
| Paths.AppendToBase | file_writer.go:90 | Appending a suffix without '/' keeps `path.Dir` and extends `path.Base`. |
| Scanner.IndexOf | file_writer.go:97-99 | The slot number read from the chosen field is an int64. |
| Scanner.Scan | file_writer.go:91-108 | `minNum` stays at most 1000000, `maxNum` at least 0, and both are int64 values. |
| Scanner.ScanCounts | file_writer.go:94-96 | `totalNum` is the number of listed names containing the pattern, including names with too few fields. |
| Scanner.ScanBounds | file_writer.go:98-106 | Every slot number read lies between the final `minNum` and `maxNum`. |
| Scanner.ScanAttained | file_writer.go:91-106 | `maxNum` is either 0 or a slot number that was read. `minNum` is either 1000000 or a slot number that was read. |
| Scanner.NoIndexedKeepsBounds | file_writer.go:91-111 | With no parsable sibling the bounds keep their starting values, so the next slot is 1. |
| Scanner.NextIndex | file_writer.go:111 | `maxNum+1` is an int64 congruent to `max + 1` modulo 2^64, so it wraps. |
| Scanner.RetiredIsNotTarget | file_writer.go:111-129 | Unless the slot number wraps, the slot retention deletes is never the slot the rotation fills. |
| Scanner.SlashPatternMatchesNothing | file_writer.go:89-95 | A pattern holding '/' matches no bare directory entry. The scan then ends with (1000000, 0, 0). |
| Scanner.SlotNameFields | file_writer.go:97 | Appending `.full.<digits>.log` to a name appends the three fields "full", the digits and "log". |
| Scanner.UniformReading | file_writer.go:91-106 | When every name that moves the bounds reads the same number, each bound ends at its start value or at that number. |
| Scanner.RotatedBaseReadsBack | file_writer.go:97-111 | Take an active base name with at least the three fields of `<name>.<stamp>.log`. Every slot's base name holds the base-name pattern and has an index field. Read from the field before ".log", it gives back the number it was printed from. Field 4 gives it back too when the base name has exactly three fields. |
| Scanner.DottedBaseReadsFieldFour | file_writer.go:97-99 | With four or more fields in the active base name, field 4 of a slot name does not depend on the slot number. Every slot reads the same value. |
| Scanner.DatedNameFields | file_writer.go:17 | A dated base name splits into the fields of `fileName`'s base name, then the stamp, then "log". That is at least three fields, and exactly three when `fileName`'s base name has no '.'. |
| Fs.Create | file_writer.go:43 | Opening with O_CREATE keeps an existing file and creates a missing one empty. Nothing else changes. |
| Fs.Append | file_writer.go:167 | An O_APPEND write extends only that file. |
| Fs.Rename | file_writer.go:112 | The contents move to the new name, replacing what was there. Nothing else changes. |
| Fs.Remove | file_writer.go:130 | Only the named file disappears. |
| FileWriter.New | file_writer.go:41-47 | Construction succeeds exactly when the open does. The writer starts on today's dated file with an empty channel. A missing dated file is created empty, no other file appears, and no existing file changes. |
| FileWriter.Write | file_writer.go:55-67 | With fewer than 256 queued, `p` joins the tail, `len(p)` is returned and there is no error. On a full channel it returns 0 and an error, and the state is unchanged. The bound is kept. |
| FileWriter.FlushStep | file_writer.go:163-169 | The head leaves the queue and is appended to the active file when attached. It is lost when detached. No other file, the queue order and `filePath` are unchanged. |
| FileWriter.Drain | file_writer.go:163-169 | `k` flush steps append the first `k` buffers, concatenated in queue order, to the active file. No other file changes. With a detached descriptor the directory is unchanged: the bytes are lost. |
| FileWriter.DeliveredInOrder | file_writer.go:163-169 | An accepted buffer reaches the file after everything queued before it. |
| FileWriter.RotateStep | file_writer.go:150-157 | On a successful open, `filePath` becomes the dated name for the day, `fileName` is unchanged, and no existing file changes. On failure nothing changes. |
| FileWriter.RotateLeavesPreviousDay | file_writer.go:150-157 | After switching to another day, a flush leaves the previous day's file untouched. |
| FileWriter.Recover | file_writer.go:75-86 | A deleted active file is recreated empty at the same `filePath` and reattached. No existing file changes. A failed open changes nothing. |
| FileWriter.RotateBySize | file_writer.go:109-135 | See the summary after this table. |
| FileWriter.CheckStepAsWritten | file_writer.go:74-137 | The check loop body as written: `CheckWith` with the whole-path pattern and field 4. It recovers a missing file, leaves a file within its size unchanged, and rotates an oversized one with the scan as written. Validity is kept. `FileWriter.AsWrittenOverwritesSlotOne` and `FileWriter.DottedNameOverwritesSlotOne` show its defects. |
| FileWriter.CheckStep | file_writer.go:74-137 | The corrected check step: `CheckWith` with the base-name pattern and the field before ".log". The same dispatch, with the corrected scan feeding the rotation. `FileWriter.CheckStepKeepsRotatedFiles` proves what it keeps. |
| FileWriter.CheckWith | file_writer.go:74-137 | A missing file is recovered, with no rotation or retention in that step. An existing file with `maxSize <= 0` or within its size leaves the state unchanged. An oversized file is rotated. Validity is kept. |
| FileWriter.PatternsAgreeWithoutDirectory | file_writer.go:89 | When `filePath` has no '/', matching on the whole path and on the base name agree. |
| FileWriter.AsWrittenTargetIsFresh | file_writer.go:89-112 | For the step as written, assume an active path without '/', three dot-separated fields (the shape the comment at file_writer.go:97 expects) and a complete listing. Then the rename target is not an existing file, unless the slot number wraps. Both findings are thus defects of other setups. |
| FileWriter.RotationTargetIsFresh | file_writer.go:89-112 | Assume the base-name pattern, the field before ".log", a complete listing, and an active base name with at least three fields, which every dated name has. Then the rename target is not an existing file, unless the slot number wraps. |
| FileWriter.CheckStepKeepsRotatedFiles | file_writer.go:87-135 | Under the same assumptions, a size rotation keeps every file except the active one and the retired slot, with unchanged contents. The old active contents land in a slot that did not exist before. |
| FileWriter.AsWrittenOverwritesSlotOne | file_writer.go:89-112 | As written, when `filePath` has a directory part, every size rotation renames into slot 1, destroying slot 1's contents. Retention never deletes anything while `maxNum > 0`. |
| FileWriter.DottedSlotsReadZero | file_writer.go:97-99 | With four fields in the active name, every slot of it in the listing reads 0 from field 4. |
| FileWriter.DottedSlotReadsZero | file_writer.go:97-99 | With four fields in the active name, the slot name for any number has a field 4, and it reads 0. |
| FileWriter.FullReadsZero | file_writer.go:99 | `strconv.Atoi("full")` with the error dropped is 0. |
| FileWriter.DottedNameOverwritesSlotOne | file_writer.go:89-129 | As written, with one '.' in `fileName`, every size rotation renames into slot 1, destroying slot 1's contents, whatever slots exist. `minNum` ends at 0 or 1000000, so retention aims at a slot the writer never creates. |
| FileWriter.ExternalRemove | file_writer.go:69 | An operator deletes a file. Exactly that name leaves the directory, no other file changes, and a descriptor on it is detached. The queue, `filePath`, `fileName` and the configuration are unchanged. |
| FileWriter.RecoveryAfterExternalDelete | file_writer.go:75-86 | Between the deletion and the next check, flushed bytes are lost. After a check whose open succeeds, the file exists, empty, and the next flush lands in it. This holds for the step as written and for the corrected step. |

`FileWriter.RotateBySize` states the following:

- After a successful rename, the target slot holds the old active contents.
- After a successful open, the descriptor is attached to `filePath`. The file
  there is empty if the rename succeeded and the old file if it failed.
- A failed open leaves the descriptor detached.
- Retention removes the `minNum` slot exactly when `totalNum >= maxNum` and
  the removal succeeds.
- No other file changes. The target changes only when the rename succeeds.
- No file appears except the target, and the target appears only when the
  rename succeeds.

## Left out

- Goroutines, the mutex and blocking channel receives are not modelled. Each
  loop body is one atomic step, and the flush step is enabled only when the
  channel is non-empty.
- The clock is not modelled: `time.Now`, the midnight timer and its -100 ns
  guard, and `time.Sleep(time.Minute)`. The rotate step takes the date as a
  parameter, and the check step is one tick.
- Real system calls are not modelled. The directory is a map, the success of
  open, rename and remove is a parameter, and the `ioutil.ReadDir` listing is
  a parameter.
  - A `ReadDir` error is ignored by the source, so any listing is allowed.
  - The lemmas that need a complete listing state it as a hypothesis
    (`FileWriter.ListsDirectory`).
- The constructor's `os.Stat`/`os.MkdirAll` of the parent directory and file
  permissions are not modelled. `FileWriter.New` starts after the directory
  exists.
- The `fmt.Printf` diagnostics and the ignored result of `w.file.Close` are
  not modelled. They have no effect on the state.
- Failed or short writes are not modelled. A flush through an attached
  descriptor appends the whole buffer. A disk that is full or an I/O error,
  which the source ignores, is not modelled.
- `os.Stat` errors other than "does not exist" are not modelled. When
  `w.maxSize > 0`, the source would then dereference a nil `fileInfo`. When
  `w.maxSize <= 0`, the short-circuit skips it.
- File names are Dafny `string`s, which are sequences of characters. Go's
  names are bytes. The results agree for UTF-8 names: neither '.' nor '/'
  occurs inside a multibyte sequence. The 19-byte fast-path threshold does
  not change what `Strconv.Atoi` returns. Names that are not valid UTF-8
  cannot be represented.
- `path.Clean` is not modelled, and neither is the difference between
  `filepath.Dir` and `path.Dir`. `Paths.Dir` and `Paths.Base` follow `path`
  for clean slash-separated paths other than "/". For "/", `path.Base`
  returns "/" and `Paths.Base` returns "". The writer never takes the base
  name of "/".
- 32-bit platforms are not modelled. `int` is 64 bits; `NextIndex` models its
  wrap-around, and `Atoi` its 64-bit range.
- Retention removes at most one file per rotation. The model states what one
  step removes, not how many siblings remain after many steps.

## Findings

| source | as written | input that shows it | evidently intended | confidence | as-written member | corrected member |
|---|---|---|---|---|---|---|
| file_writer.go:89 | The sibling pattern is `w.filePath + ".full."`, which includes the directory part of the active path. It is tested against the bare names `ioutil.ReadDir` returns. | `fileName = "logs/app"`, with `logs/app.2018-05-22.log` oversized and `logs/app.2018-05-22.log.full.1.log` present. No entry contains the pattern, so `maxNum` stays 0. The rename targets slot 1 again and replaces the earlier rotated file. Retention never fires while `maxNum > 0`. | Match the base name, `path.Base(w.filePath) + ".full."`. Each rotation then gets a fresh slot, and the earlier slots survive except the one retention removes. | not executed | FileWriter.AsWrittenOverwritesSlotOne | FileWriter.CheckStepKeepsRotatedFiles |
| file_writer.go:97-99 | The slot number is read from field 4, `s[4]`, of the sibling's name split on '.'. That is the slot number only when `fileName`'s base name has no '.'. | `fileName = "app.v1"`: the slot `app.v1.2018-05-22.log.full.1.log` splits into `app`, `v1`, `2018-05-22`, `log`, `full`, `1`, `log`, and field 4 is "full", which reads as 0. `maxNum` stays 0, so every rotation renames into slot 1 and replaces it. Once a slot exists `minNum` becomes 0, so retention removes slot 0, which never exists. With two dots field 4 is "log", and with three it is the stamp, which both read as 0. With four or more it is a piece of the name, the same for every slot. | Read the field before the ".log" extension, `s[len(s)-2]`, where `%s.full.%d.log` puts the number however many dots the name has. Each rotation then gets a fresh slot, whatever `fileName` is. | not executed | FileWriter.DottedNameOverwritesSlotOne | FileWriter.CheckStepKeepsRotatedFiles |

`FileWriter.CheckStepAsWritten` is the check step as written. It uses the
whole-path pattern and reads field 4. `FileWriter.CheckStep` is the corrected
step, with both fixes: the base-name pattern, and the field before ".log".
Both are `FileWriter.CheckWith` with a different pattern and field. The
recovery lemma `FileWriter.RecoveryAfterExternalDelete` is stated for both
steps, since neither fix touches the recovery branch. Every dated name meets the
three-field hypothesis of `FileWriter.CheckStepKeepsRotatedFiles`
(`Scanner.DatedNameFields`), so the corrected lemma covers both rows.

=== FILE: file_writer.dfy ===
/** `FileWriter` (file_writer.go): an asynchronous log sink. `Write` queues a
    copy of each buffer in a channel of 256 slots, one loop flushes the
    queue to the open log file, one switches to a new dated file at
    midnight, and one checks every minute whether the file was deleted or
    has outgrown `maxSize`. Each loop body is modelled as one atomic step
    on an immutable state; the loops themselves, the mutex and the clocks
    are not part of this model. */
module FileWriter {
  import opened Strconv
  import opened Naming
  import opened Scanner
  import opened Fs
  import Paths
  import GoStrings

  /** `make(chan []byte, 256)`. */
  const ChannelCapacity: nat := 256

  datatype Option<T> = None | Some(value: T)

  /** Where `w.writer` sends its bytes: the file currently named `path`, or
      nowhere visible (a closed descriptor, or one whose file was unlinked). */
  datatype Handle = Attached(path: string) | Detached

  /** The fields of `FileWriter`: the configuration, the active dated path,
      the descriptor, the buffers waiting in the channel, and the directory
      the writer works in. */
  datatype State = State(
    maxSize: int,
    maxNum: int,
    fileName: string,
    filePath: string,
    handle: Handle,
    queue: seq<Bytes>,
    dir: Directory)

  /** The channel holds at most 256 buffers and an attached descriptor
      refers to the active file, which exists. */
  predicate Valid(s: State) {
    InInt64(s.maxSize) && InInt64(s.maxNum) && |s.queue| <= ChannelCapacity &&
    (s.handle.Attached? ==> s.handle.path == s.filePath && s.filePath in s.dir)
  }

  /** `NewFileWriter` after its directory exists: open today's dated file
      for appending, or fail with the open's error. */
  function New(fileName: string, maxSize: int, maxNum: int, today: Date, dir: Directory, openOk: bool): (r: Option<State>)
    requires InInt64(maxSize) && InInt64(maxNum)
    ensures r.Some? <==> openOk
    ensures r.Some? ==> Valid(r.value)
    ensures r.Some? ==> r.value.fileName == fileName && r.value.filePath == DatedName(fileName, today)
    ensures r.Some? ==> r.value.maxSize == maxSize && r.value.maxNum == maxNum
    ensures r.Some? ==> r.value.queue == [] && r.value.handle == Attached(r.value.filePath)
    ensures r.Some? ==> forall q :: q in dir ==> q in r.value.dir && r.value.dir[q] == dir[q]
    ensures r.Some? ==> r.value.dir.Keys == dir.Keys + {r.value.filePath}
    ensures r.Some? && r.value.filePath !in dir ==> r.value.dir[r.value.filePath] == []
  {
    var path := DatedName(fileName, today);
    if openOk then Some(State(maxSize, maxNum, fileName, path, Attached(path), [], Create(dir, path)))
    else None
  }

  /** The error `Write` returns when the channel is full. */
  datatype WriteError = ChanFull

  /** What `Write` returns, together with the state it leaves. */
  datatype WriteResult = WriteResult(state: State, n: int, err: Option<WriteError>)

  /** `Write`: a non-blocking send of a copy of `p`. With room in the
      channel the buffer joins the tail and its length is returned; on a
      full channel nothing changes and the buffer is dropped with an error. */
  function Write(s: State, p: Bytes): (r: WriteResult)
    ensures r.err.None? <==> |s.queue| < ChannelCapacity
    ensures r.err.None? ==> r.n == |p| && |r.state.queue| == |s.queue| + 1
    ensures r.err.None? ==> r.state.queue[..|s.queue|] == s.queue && r.state.queue[|s.queue|] == p
    ensures r.err.None? ==> r.state == s.(queue := r.state.queue)
    ensures r.err.Some? ==> r.n == 0 && r.state == s
    ensures Valid(s) ==> Valid(r.state)
  {
    if |s.queue| < ChannelCapacity then
      var q := s.queue + [p];
      assert q[..|s.queue|] == s.queue;
      WriteResult(s.(queue := q), |p|, None)
    else WriteResult(s, 0, Some(ChanFull))
  }

  /** One iteration of the flush loop, enabled when the channel holds a
      buffer: the head leaves the channel and is appended to the file the
      descriptor refers to; with a detached descriptor the bytes are lost.
      Nothing else changes. */
  function FlushStep(s: State): (r: State)
    requires |s.queue| > 0
    ensures r.queue == s.queue[1..]
    ensures r == s.(queue := r.queue, dir := r.dir)
    ensures Valid(s) && s.handle.Attached? ==>
      r.dir.Keys == s.dir.Keys && r.dir[s.filePath] == s.dir[s.filePath] + s.queue[0]
    ensures Valid(s) ==> forall q :: q in s.dir && q != s.filePath ==> q in r.dir && r.dir[q] == s.dir[q]
    ensures s.handle.Detached? ==> r.dir == s.dir
    ensures Valid(s) ==> Valid(r)
  {
    var dir := match s.handle
      case Attached(path) => if path in s.dir then Append(s.dir, path, s.queue[0]) else s.dir
      case Detached => s.dir;
    s.(queue := s.queue[1..], dir := dir)
  }

  /** The bytes of a sequence of buffers, in order. */
  function Concat(chunks: seq<Bytes>): Bytes {
    if |chunks| == 0 then [] else chunks[0] + Concat(chunks[1..])
  }

  lemma {:induction false} ConcatSnoc(chunks: seq<Bytes>, last: Bytes)
    ensures Concat(chunks + [last]) == Concat(chunks) + last
    decreases |chunks|
  {
    if |chunks| == 0 {
      assert [] + [last] == [last];
    } else {
      assert (chunks + [last])[1..] == chunks[1..] + [last];
      ConcatSnoc(chunks[1..], last);
    }
  }

  /** `k` flush steps in a row. The first `k` buffers reach the active file
      one after another, in the order they were queued, and no other file
      changes. */
  function Drain(s: State, k: nat): (r: State)
    requires k <= |s.queue|
    ensures r.queue == s.queue[k..]
    ensures r == s.(queue := r.queue, dir := r.dir)
    ensures Valid(s) && s.handle.Attached? ==>
      r.dir.Keys == s.dir.Keys && r.dir[s.filePath] == s.dir[s.filePath] + Concat(s.queue[..k])
    ensures Valid(s) ==> forall q :: q in s.dir && q != s.filePath ==> q in r.dir && r.dir[q] == s.dir[q]
    ensures s.handle.Detached? ==> r.dir == s.dir
    ensures Valid(s) ==> Valid(r)
    decreases k
  {
    if k == 0 then
      assert s.queue[..0] == [];
      s
    else
      var next := FlushStep(s);
      assert next.queue[k - 1..] == s.queue[k..];
      assert s.queue[..k][1..] == next.queue[..k - 1];
      Drain(next, k - 1)
  }

  /** A buffer `Write` accepts reaches the active file after every buffer
      accepted before it, once the channel has been drained. */
  lemma DeliveredInOrder(s: State, p: Bytes)
    requires Valid(s) && s.handle.Attached?
    requires |s.queue| < ChannelCapacity
    ensures var w := Write(s, p).state;
      var r := Drain(w, |w.queue|);
      r.queue == [] && r.dir[s.filePath] == s.dir[s.filePath] + Concat(s.queue) + p
  {
    var w := Write(s, p).state;
    assert w.queue == s.queue + [p];
    assert w.queue[..|w.queue|] == w.queue;
    ConcatSnoc(s.queue, p);
  }

  /** One iteration of the rotate loop once the timer has fired for date
      `d`: open the dated file for that day, creating it if needed, and
      make it the active file. When the open fails the writer carries on
      with the old file. */
  function RotateStep(s: State, d: Date, openOk: bool): (r: State)
    ensures openOk ==> r.filePath == DatedName(s.fileName, d) && r.handle == Attached(r.filePath)
    ensures openOk ==> r.filePath in r.dir && r.dir.Keys == s.dir.Keys + {r.filePath}
    ensures openOk ==> r == s.(filePath := r.filePath, handle := r.handle, dir := r.dir)
    ensures forall q :: q in s.dir ==> q in r.dir && r.dir[q] == s.dir[q]
    ensures openOk && r.filePath !in s.dir ==> r.dir[r.filePath] == []
    ensures !openOk ==> r == s
    ensures Valid(s) ==> Valid(r)
  {
    var path := DatedName(s.fileName, d);
    if openOk then s.(filePath := path, handle := Attached(path), dir := Create(s.dir, path))
    else s
  }

  /** After the switch to a later day, flushing never touches the previous
      day's file again. */
  lemma RotateLeavesPreviousDay(s: State, yesterday: Date, today: Date)
    requires Valid(s) && |s.queue| > 0
    requires ValidDate(yesterday) && ValidDate(today)
    requires yesterday != today
    ensures s.filePath == DatedName(s.fileName, yesterday) && s.filePath in s.dir ==>
      var r := FlushStep(RotateStep(s, today, true));
      s.filePath in r.dir && r.dir[s.filePath] == s.dir[s.filePath]
  {
    if s.filePath == DatedName(s.fileName, yesterday) && s.filePath in s.dir {
      var t := RotateStep(s, today, true);
      if t.filePath == s.filePath {
        DatedNameInjective(s.fileName, yesterday, today);
      }
    }
  }

  /** The outcomes of the operating-system calls one check step makes:
      the open of the active path, the rename and the removal. */
  datatype OsOutcome = OsOutcome(openOk: bool, renameOk: bool, removeOk: bool)

  /** `os.IsNotExist(err)` for the `os.Stat` of the active path. */
  predicate Missing(s: State) {
    s.filePath !in s.dir
  }

  /** `w.maxSize > 0 && fileInfo.Size() > w.maxSize`. */
  predicate Oversized(s: State) {
    s.filePath in s.dir && s.maxSize > 0 && |s.dir[s.filePath]| > s.maxSize
  }

  /** The recovery branch: the active file was deleted, so it is opened
      again (and created empty); the old descriptor is replaced only when
      the open succeeds. */
  function Recover(s: State, openOk: bool): (r: State)
    requires Missing(s)
    ensures openOk ==> r.handle == Attached(s.filePath) && r.filePath in r.dir && r.dir[r.filePath] == []
    ensures openOk ==> r.dir.Keys == s.dir.Keys + {s.filePath}
    ensures forall q :: q in s.dir ==> q in r.dir && r.dir[q] == s.dir[q]
    ensures r == s.(handle := r.handle, dir := r.dir)
    ensures !openOk ==> r == s
    ensures Valid(s) ==> Valid(r)
  {
    if openOk then s.(handle := Attached(s.filePath), dir := Create(s.dir, s.filePath)) else s
  }

  /** The slot the active file is renamed to. */
  function Target(s: State, sib: Siblings): string
    requires InInt64(sib.maxIndex)
  {
    RotatedName(s.filePath, NextIndex(sib.maxIndex))
  }

  /** The slot the retention rule deletes. */
  function Retired(s: State, sib: Siblings): string {
    RotatedName(s.filePath, sib.minIndex)
  }

  /** Whether this rotation deletes the retired slot: the siblings counted
      before the rotation reach `maxNum` and the removal succeeds. */
  predicate Retires(s: State, sib: Siblings, os: OsOutcome) {
    sib.total >= s.maxNum && os.removeOk
  }

  /** The size-rotation branch, given the scan's result: close the file,
      rename it to the next slot, reopen the active path (a fresh empty file
      when the rename went through, the old one when it did not), then, if
      the count reached `maxNum`, remove the lowest slot. */
  function RotateBySize(s: State, sib: Siblings, os: OsOutcome): (r: State)
    requires s.filePath in s.dir
    requires InInt64(sib.maxIndex)
    ensures r == s.(handle := r.handle, dir := r.dir)
    ensures os.renameOk && !(Retires(s, sib, os) && Retired(s, sib) == Target(s, sib)) ==>
      Target(s, sib) in r.dir && r.dir[Target(s, sib)] == s.dir[s.filePath]
    ensures os.openOk ==> r.handle == Attached(s.filePath) && s.filePath in r.dir
    ensures os.openOk && os.renameOk ==> r.dir[s.filePath] == []
    ensures !os.renameOk ==> s.filePath in r.dir && r.dir[s.filePath] == s.dir[s.filePath]
    ensures !os.openOk ==> r.handle == Detached && (s.filePath in r.dir <==> !os.renameOk)
    ensures Retires(s, sib, os) ==> Retired(s, sib) !in r.dir
    ensures forall q :: (q in s.dir && q != s.filePath && !(os.renameOk && q == Target(s, sib)) &&
      !(Retires(s, sib, os) && q == Retired(s, sib))) ==> q in r.dir && r.dir[q] == s.dir[q]
    ensures r.dir.Keys <= s.dir.Keys + (if os.renameOk then {Target(s, sib)} else {})
    ensures Valid(s) ==> Valid(r)
  {
    var path, target, retired := s.filePath, Target(s, sib), Retired(s, sib);
    var added := if os.renameOk then {target} else {};
    var renamed := if os.renameOk then Rename(s.dir, path, target) else s.dir;
    assert renamed.Keys <= s.dir.Keys + added;
    var reopened := if os.openOk then Create(renamed, path) else renamed;
    assert reopened.Keys <= s.dir.Keys + added;
    var handle := if os.openOk then Attached(path) else Detached;
    var pruned := if Retires(s, sib, os) then Remove(reopened, retired) else reopened;
    s.(handle := handle, dir := pruned)
  }

  /** One iteration of the check loop after its minute's sleep, with the
      listing of the active file's directory given as `entries`, the
      sibling pattern as `pattern` and the field slot numbers are read from
      as `field`. A deleted file is recovered and nothing
      else happens in that step; an existing file within its size limit
      leaves everything as it was; an oversized one is rotated. */
  function CheckWith(s: State, pattern: string, field: SlotField, entries: seq<string>, os: OsOutcome): (r: State)
    ensures r == s.(handle := r.handle, dir := r.dir)
    ensures !Missing(s) && !Oversized(s) ==> r == s
    ensures Missing(s) ==> r == Recover(s, os.openOk)
    ensures Oversized(s) ==> r == RotateBySize(s, Scan(entries, pattern, field), os)
    ensures Valid(s) ==> Valid(r)
  {
    if Missing(s) then Recover(s, os.openOk)
    else if Oversized(s) then RotateBySize(s, Scan(entries, pattern, field), os)
    else s
  }

  /** The sibling pattern as file_writer.go builds it: the whole active
      path, directory included, followed by ".full.". */
  function PatternAsWritten(s: State): string {
    s.filePath + ".full."
  }

  /** The sibling pattern that matches the bare names a directory listing
      returns: the active file's base name followed by ".full.". */
  function Pattern(s: State): string {
    Paths.Base(s.filePath) + ".full."
  }

  /** The check step as file_writer.go writes it: the whole-path pattern,
      and the slot number read from field 4. */
  function CheckStepAsWritten(s: State, entries: seq<string>, os: OsOutcome): (r: State)
    ensures r == s.(handle := r.handle, dir := r.dir)
    ensures Missing(s) ==> r == Recover(s, os.openOk)
    ensures !Missing(s) && !Oversized(s) ==> r == s
    ensures Oversized(s) ==> r == RotateBySize(s, Scan(entries, PatternAsWritten(s), FieldFour), os)
    ensures Valid(s) ==> Valid(r)
  {
    CheckWith(s, PatternAsWritten(s), FieldFour, entries, os)
  }

  /** The check step with the sibling pattern matched against base names
      and the slot number read from the field before ".log". */
  function CheckStep(s: State, entries: seq<string>, os: OsOutcome): (r: State)
    ensures r == s.(handle := r.handle, dir := r.dir)
    ensures Missing(s) ==> r == Recover(s, os.openOk)
    ensures !Missing(s) && !Oversized(s) ==> r == s
    ensures Oversized(s) ==> r == RotateBySize(s, Scan(entries, Pattern(s), NextToLast), os)
    ensures Valid(s) ==> Valid(r)
  {
    CheckWith(s, Pattern(s), NextToLast, entries, os)
  }

  /** When the active path has no directory part the two patterns agree. */
  lemma PatternsAgreeWithoutDirectory(s: State, entries: seq<string>, os: OsOutcome)
    requires '/' !in s.filePath
    ensures CheckStepAsWritten(s, entries, os) == CheckWith(s, Pattern(s), FieldFour, entries, os)
  {
    assert Paths.Base(s.filePath) == s.filePath;
  }

  /** `entries` names every file of `dir` that lies in `directory`, by its
      base name, as `ioutil.ReadDir` does when it succeeds. */
  predicate ListsDirectory(entries: seq<string>, dir: Directory, directory: string) {
    forall p :: p in dir && Paths.Dir(p) == directory ==> Paths.Base(p) in entries
  }

  /** With the base-name pattern and a complete listing, the slot a size
      rotation renames the active file to is not taken, as long as the
      slot number does not wrap. The active base name has at least the
      three fields every dated name has (`DatedNameFields`). */
  lemma RotationTargetIsFresh(s: State, entries: seq<string>)
    requires |Fields(Paths.Base(s.filePath))| >= 3
    requires ListsDirectory(entries, s.dir, Paths.Dir(s.filePath))
    ensures var sib := Scan(entries, Pattern(s), NextToLast);
      sib.maxIndex < MaxInt64 ==> Target(s, sib) !in s.dir
  {
    var sib := Scan(entries, Pattern(s), NextToLast);
    var n := NextIndex(sib.maxIndex);
    var target := RotatedName(s.filePath, n);
    if sib.maxIndex < MaxInt64 && target in s.dir {
      RotatedNamePath(s.filePath, n);
      var i :| 0 <= i < |entries| && entries[i] == Paths.Base(target);
      RotatedBaseReadsBack(Paths.Base(s.filePath), n);
      ScanBounds(entries, Pattern(s), NextToLast);
    }
  }

  /** In the setup file_writer.go was written for, an active path without
      a directory whose name has the three fields of the comment's example,
      the step as written also renames into a slot that is not taken, as
      long as the slot number does not wrap. */
  lemma AsWrittenTargetIsFresh(s: State, entries: seq<string>)
    requires '/' !in s.filePath && |Fields(s.filePath)| == 3
    requires ListsDirectory(entries, s.dir, Paths.Dir(s.filePath))
    ensures var sib := Scan(entries, PatternAsWritten(s), FieldFour);
      sib.maxIndex < MaxInt64 ==> Target(s, sib) !in s.dir
  {
    var sib := Scan(entries, PatternAsWritten(s), FieldFour);
    var n := NextIndex(sib.maxIndex);
    var target := RotatedName(s.filePath, n);
    assert Paths.Base(s.filePath) == s.filePath;
    if sib.maxIndex < MaxInt64 && target in s.dir {
      RotatedNamePath(s.filePath, n);
      var i :| 0 <= i < |entries| && entries[i] == Paths.Base(target);
      RotatedBaseReadsBack(s.filePath, n);
      ScanBounds(entries, PatternAsWritten(s), FieldFour);
    }
  }

  /** The size rotation from `s` to `r` with the siblings `sib` put the old
      active contents into a slot that did not exist before, and kept every
      other file except the active one and the slot retention deletes. */
  predicate KeepsRotatedFiles(s: State, r: State, sib: Siblings, os: OsOutcome)
    requires InInt64(sib.maxIndex) && s.filePath in s.dir
  {
    Target(s, sib) !in s.dir && Target(s, sib) in r.dir && r.dir[Target(s, sib)] == s.dir[s.filePath] &&
    forall q :: q in s.dir && q != s.filePath && !(Retires(s, sib, os) && q == Retired(s, sib)) ==>
      q in r.dir && r.dir[q] == s.dir[q]
  }

  /** With the base-name pattern and the slot number read before ".log", a
      size rotation keeps every earlier slot except the one the retention
      rule deletes, and the old active contents land in a slot that did not
      exist before. */
  lemma CheckStepKeepsRotatedFiles(s: State, entries: seq<string>, os: OsOutcome)
    requires |Fields(Paths.Base(s.filePath))| >= 3
    requires ListsDirectory(entries, s.dir, Paths.Dir(s.filePath))
    requires Oversized(s) && os.renameOk
    ensures var sib := Scan(entries, Pattern(s), NextToLast);
      sib.maxIndex < MaxInt64 ==> KeepsRotatedFiles(s, CheckStep(s, entries, os), sib, os)
  {
    var sib := Scan(entries, Pattern(s), NextToLast);
    if sib.maxIndex < MaxInt64 {
      RotationTargetIsFresh(s, entries);
      RetiredIsNotTarget(entries, Pattern(s), NextToLast);
      if Retired(s, sib) == Target(s, sib) {
        RotatedNameInjective(s.filePath, sib.minIndex, NextIndex(sib.maxIndex));
      }
    }
  }

  /** As file_writer.go writes it, with a directory in the active path the
      pattern matches no listed name, so every size rotation renames into
      slot 1, replacing what slot 1 held, and the retention rule only fires
      when `maxNum` is not positive. */
  lemma AsWrittenOverwritesSlotOne(s: State, entries: seq<string>, os: OsOutcome)
    requires '/' in s.filePath
    requires forall i :: 0 <= i < |entries| ==> '/' !in entries[i]
    requires Oversized(s) && os.renameOk
    ensures var r, slot := CheckStepAsWritten(s, entries, os), RotatedName(s.filePath, 1);
      slot in r.dir && r.dir[slot] == s.dir[s.filePath] &&
      (slot in s.dir && s.dir[slot] != s.dir[s.filePath] ==> r.dir[slot] != s.dir[slot])
    ensures s.maxNum > 0 ==> var r := CheckStepAsWritten(s, entries, os);
      forall q :: q in s.dir && q != s.filePath && q != RotatedName(s.filePath, 1) ==> q in r.dir
  {
    var sib := Scan(entries, PatternAsWritten(s), FieldFour);
    SlashPatternMatchesNothing(entries, PatternAsWritten(s), FieldFour);
    assert sib == Empty;
    if RotatedName(s.filePath, InitialMin) == RotatedName(s.filePath, 1) {
      RotatedNameInjective(s.filePath, InitialMin, 1);
    }
  }

  /** As file_writer.go writes it, with a single '.' in `fileName` (so the
      active name has four dot-separated fields) field 4 of every slot name
      is "full", which reads as 0. Whatever slots the directory holds, a
      size rotation renames into slot 1, replacing what slot 1 held, and
      `minNum` is 0 or 1000000, so retention aims at a slot that the writer
      never creates. The
      listing here holds slots of the active file and names that do not
      contain the pattern. */
  lemma DottedNameOverwritesSlotOne(s: State, entries: seq<string>, slots: seq<int>, os: OsOutcome)
    requires '/' !in s.filePath && |Fields(s.filePath)| == 4
    requires |slots| == |entries|
    requires forall i :: 0 <= i < |entries| ==>
      !GoStrings.Contains(entries[i], PatternAsWritten(s)) || entries[i] == RotatedName(s.filePath, slots[i])
    requires Oversized(s) && os.renameOk
    ensures var r, slot := CheckStepAsWritten(s, entries, os), RotatedName(s.filePath, 1);
      slot in r.dir && r.dir[slot] == s.dir[s.filePath] &&
      (slot in s.dir && s.dir[slot] != s.dir[s.filePath] ==> r.dir[slot] != s.dir[slot])
    ensures var sib := Scan(entries, PatternAsWritten(s), FieldFour);
      sib.minIndex == 0 || sib.minIndex == InitialMin
  {
    var pattern := PatternAsWritten(s);
    var sib := Scan(entries, pattern, FieldFour);
    DottedSlotsReadZero(s, entries, slots);
    UniformReading(entries, pattern, FieldFour, 0);
    assert sib.maxIndex == 0 && Target(s, sib) == RotatedName(s.filePath, 1);
    if Retired(s, sib) == Target(s, sib) {
      RotatedNameInjective(s.filePath, sib.minIndex, 1);
    }
    assert CheckStepAsWritten(s, entries, os) == RotateBySize(s, sib, os);
  }

  /** Every slot of a name with four fields reads 0 from field 4. */
  lemma DottedSlotsReadZero(s: State, entries: seq<string>, slots: seq<int>)
    requires |Fields(s.filePath)| == 4
    requires |slots| == |entries|
    requires forall i :: 0 <= i < |entries| ==>
      !GoStrings.Contains(entries[i], PatternAsWritten(s)) || entries[i] == RotatedName(s.filePath, slots[i])
    ensures forall i :: 0 <= i < |entries| && Indexed(entries[i], PatternAsWritten(s)) ==>
      IndexOf(entries[i], FieldFour) == 0
  {
    forall i | 0 <= i < |entries| && Indexed(entries[i], PatternAsWritten(s))
      ensures IndexOf(entries[i], FieldFour) == 0
    {
      assert entries[i] == RotatedName(s.filePath, slots[i]);
      DottedSlotReadsZero(s.filePath, slots[i]);
    }
  }

  /** One slot of a name with four fields reads 0 from field 4. */
  lemma DottedSlotReadsZero(filePath: string, n: int)
    requires |Fields(filePath)| == 4
    ensures HasIndexField(RotatedName(filePath, n)) && IndexOf(RotatedName(filePath, n), FieldFour) == 0
  {
    assert RotatedName(filePath, n) == filePath + (".full." + Itoa(n) + ".log");
    DottedBaseReadsFieldFour(filePath, n);
    assert (Fields(filePath) + ["full"])[4] == "full";
    FullReadsZero();
  }

  /** The word "full" is not a numeral, so `Atoi` gives 0 for it. */
  lemma FullReadsZero()
    ensures Atoi("full") == 0
  {
    assert Magnitude("full") == "full" && !IsDigit("full"[0]);
    assert !AllDigits("full");
  }

  /** An operator deleting the file at `path`. A descriptor on that file
      now refers to an unlinked file. */
  function ExternalRemove(s: State, path: string): (r: State)
    ensures path !in r.dir
    ensures forall q :: q in s.dir && q != path ==> q in r.dir && r.dir[q] == s.dir[q]
    ensures r.handle == if s.handle == Attached(path) then Detached else s.handle
    ensures r == s.(dir := r.dir, handle := r.handle) && r.dir.Keys == s.dir.Keys - {path}
    ensures Valid(s) ==> Valid(r)
  {
    s.(dir := Remove(s.dir, path), handle := if s.handle == Attached(path) then Detached else s.handle)
  }

  /** After the active file is deleted, flushed buffers are lost until the
      next check step; once its open succeeds, the file is back, empty, and
      the next flush lands in it. */
  lemma RecoveryAfterExternalDelete(s: State, entries: seq<string>, os: OsOutcome)
    requires Valid(s) && |s.queue| > 0
    requires os.openOk
    ensures var gone := ExternalRemove(s, s.filePath);
      FlushStep(gone).dir == gone.dir
    ensures var back := CheckStep(ExternalRemove(s, s.filePath), entries, os);
      back.handle == Attached(s.filePath) && back.dir[s.filePath] == [] &&
      FlushStep(back).dir[s.filePath] == s.queue[0]
    ensures var back := CheckStepAsWritten(ExternalRemove(s, s.filePath), entries, os);
      back.handle == Attached(s.filePath) && back.dir[s.filePath] == [] &&
      FlushStep(back).dir[s.filePath] == s.queue[0]
  {
    var gone := ExternalRemove(s, s.filePath);
    assert Valid(gone) && Missing(gone);
    var back := CheckStep(gone, entries, os);
    assert Valid(back);
    var backAsWritten := CheckStepAsWritten(gone, entries, os);
    assert Valid(backAsWritten);
  }
}

=== FILE: fmt.dfy ===
/** The integer verbs of Go's `fmt` that the writer's name formats use:
    `%d`, `%4d` and `%02d`. */
module Fmt {
  import opened Strconv

  /** Right-justify `s` in a field of `width` characters filled with `c`; a
      longer `s` is left as it is. */
  function PadLeft(s: string, width: int, c: char): (r: string)
    ensures |r| == if |s| >= width then |s| else width
    ensures r[|r| - |s|..] == s
    ensures forall i :: 0 <= i < |r| - |s| ==> r[i] == c
  {
    if |s| >= width then s else seq(width - |s|, _ => c) + s
  }

  /** `%<width>d`: the decimal form of `n` right-justified with spaces, the
      sign counting toward the width. */
  function Padded(n: int, width: int): (r: string)
    ensures |r| == if |Itoa(n)| >= width then |Itoa(n)| else width
    ensures r[|r| - |Itoa(n)|..] == Itoa(n)
    ensures forall i :: 0 <= i < |r| - |Itoa(n)| ==> r[i] == ' '
    ensures '.' !in r && '/' !in r
  {
    var r := PadLeft(Itoa(n), width, ' ');
    assert r == r[..|r| - |Itoa(n)|] + Itoa(n);
    r
  }

  /** `%<width>d` prints different numbers differently: the decimal form
      never starts with a space, so the padding can be told from it. */
  lemma PaddedInjective(a: int, b: int, width: int)
    requires Padded(a, width) == Padded(b, width)
    ensures a == b
  {
    var r, ia, ib := Padded(a, width), Itoa(a), Itoa(b);
    assert ia[0] != ' ' && ib[0] != ' ';
    assert r[|r| - |ib|] == ib[0] && r[|r| - |ia|] == ia[0];
    assert ia == r[|r| - |ia|..] == ib;
    ItoaInjective(a, b);
  }

  /** `%0<width>d`: zeros go between the sign and the digits, and the sign
      counts toward the width. */
  function ZeroPadded(n: int, width: int): (r: string)
    ensures '.' !in r && '/' !in r
    ensures n >= 0 ==> AllDigits(r) && Value(r) == n
    ensures |r| == if |Itoa(n)| >= width then |Itoa(n)| else width
    ensures n < 0 ==> |r| >= 2 && r[0] == '-' && AllDigits(r[1..]) && Value(r[1..]) == -n
  {
    if n < 0 then
      var digits := PadLeft(NatToString(-n), width - 1, '0');
      LeadingZeros(NatToString(-n), width - 1);
      DigitsArePlain(digits);
      var r := "-" + digits;
      assert r[1..] == digits;
      r
    else
      LeadingZeros(NatToString(n), width);
      DigitsArePlain(PadLeft(NatToString(n), width, '0'));
      PadLeft(NatToString(n), width, '0')
  }

  /** Zero padding keeps a digit string's value. */
  lemma LeadingZeros(s: string, width: int)
    requires AllDigits(s)
    ensures AllDigits(PadLeft(s, width, '0'))
    ensures Value(PadLeft(s, width, '0')) == Value(s)
  {
    var r := PadLeft(s, width, '0');
    var z := r[..|r| - |s|];
    assert r == z + s;
    ValueLeadingZeros(z, s);
  }
}

=== FILE: fs.dfy ===
/** The directory the writer works in, as a map from path to file contents,
    and the four file-system calls the writer makes on it. A call that the
    operating system refuses is modelled by the caller not applying it. */
module Fs {

  newtype byte = x: int | 0 <= x < 256

  type Bytes = seq<byte>

  type Directory = map<string, Bytes>

  /** `os.OpenFile(path, O_CREATE|O_RDWR|O_APPEND, 0666)`: an existing file
      is kept as it is, a missing one is created empty. */
  function Create(dir: Directory, path: string): (r: Directory)
    ensures r.Keys == dir.Keys + {path}
    ensures path in dir ==> r[path] == dir[path]
    ensures path !in dir ==> r[path] == []
    ensures forall q :: q in dir && q != path ==> r[q] == dir[q]
  {
    if path in dir then dir else dir[path := []]
  }

  /** A write through a descriptor opened with `O_APPEND`. */
  function Append(dir: Directory, path: string, data: Bytes): (r: Directory)
    requires path in dir
    ensures r.Keys == dir.Keys
    ensures r[path] == dir[path] + data
    ensures forall q :: q in dir && q != path ==> r[q] == dir[q]
  {
    dir[path := dir[path] + data]
  }

  /** `os.Rename(from, to)` on an existing file: the contents move to `to`,
      replacing whatever was there. */
  function Rename(dir: Directory, from: string, to: string): (r: Directory)
    requires from in dir
    ensures r.Keys == dir.Keys - {from} + {to}
    ensures r[to] == dir[from]
    ensures forall q :: q in dir && q != from && q != to ==> r[q] == dir[q]
  {
    if from == to then dir else (dir - {from})[to := dir[from]]
  }

  /** `os.Remove(path)`; removing a missing file changes nothing. */
  function Remove(dir: Directory, path: string): (r: Directory)
    ensures r.Keys == dir.Keys - {path}
    ensures forall q :: q in dir && q != path ==> r[q] == dir[q]
  {
    dir - {path}
  }
}

=== FILE: go_strings.dfy ===
/** The two functions of Go's `strings` package the writer relies on when it
    scans a directory: substring containment and splitting on a separator. */
module GoStrings {

  /** `strings.Contains(s, sub)`: `sub` occurs in `s` at some offset. The
      empty string occurs in every string. */
  predicate Contains(s: string, sub: string)
    ensures Contains(s, sub) ==> |sub| <= |s|
    decreases |s|
  {
    |sub| <= |s| && (s[..|sub|] == sub || Contains(s[1..], sub))
  }

  /** `sub` occurs in `s` starting at index `i`. */
  predicate OccursAt(s: string, sub: string, i: int) {
    0 <= i && i + |sub| <= |s| && s[i..i + |sub|] == sub
  }

  /** `Contains` holds exactly when `sub` occurs at some offset of `s`. */
  lemma {:induction false} ContainsOffset(s: string, sub: string)
    ensures Contains(s, sub) <==> exists i :: OccursAt(s, sub, i)
    decreases |s|
  {
    if |sub| <= |s| && s[..|sub|] == sub {
      assert OccursAt(s, sub, 0);
    } else if |sub| <= |s| {
      ContainsOffset(s[1..], sub);
      forall i | OccursAt(s, sub, i) && i > 0
        ensures OccursAt(s[1..], sub, i - 1)
      {
        assert s[1..][i - 1..i - 1 + |sub|] == s[i..i + |sub|];
      }
      forall j | OccursAt(s[1..], sub, j)
        ensures OccursAt(s, sub, j + 1)
      {
        assert s[1..][j..j + |sub|] == s[j + 1..j + 1 + |sub|];
      }
    }
  }

  /** A string contains each of its prefixes. */
  lemma ContainsPrefix(sub: string, rest: string)
    ensures Contains(sub + rest, sub)
  {
    assert (sub + rest)[..|sub|] == sub;
  }

  /** A string cannot contain a pattern holding a character the string lacks. */
  lemma {:induction false} NotContainsMissingChar(s: string, sub: string, c: char)
    requires c in sub && c !in s
    ensures !Contains(s, sub)
    decreases |s|
  {
    if |sub| <= |s| {
      var j :| 0 <= j < |sub| && sub[j] == c;
      assert s[..|sub|][j] == s[j];
      assert c !in s[1..] by {
        assert forall i :: 0 <= i < |s| - 1 ==> s[1..][i] == s[i + 1];
      }
      NotContainsMissingChar(s[1..], sub, c);
    }
  }

  /** `strings.Join(fields, string(sep))`. */
  function Join(fields: seq<string>, sep: char): string
  {
    if |fields| == 0 then ""
    else if |fields| == 1 then fields[0]
    else fields[0] + [sep] + Join(fields[1..], sep)
  }

  /** `strings.Split(s, string(sep))` for a one-character separator: the
      maximal runs between separators, so that `k` separators give `k + 1`
      fields and the empty string gives one empty field. */
  function Split(s: string, sep: char): (fields: seq<string>)
    ensures |fields| >= 1
    ensures forall i :: 0 <= i < |fields| ==> sep !in fields[i]
    ensures Join(fields, sep) == s
  {
    if |s| == 0 then [""]
    else
      var rest := Split(s[1..], sep);
      if s[0] == sep then
        assert ([""] + rest)[1..] == rest;
        [""] + rest
      else
        var fields := [[s[0]] + rest[0]] + rest[1..];
        assert fields[1..] == rest[1..];
        assert |rest| > 1 ==> Join(rest, sep) == rest[0] + [sep] + Join(rest[1..], sep);
        assert forall i :: 1 <= i < |fields| ==> fields[i] == rest[i];
        fields
  }

  /** A string without the separator is a single field. */
  lemma {:induction false} SplitWithoutSep(s: string, sep: char)
    requires sep !in s
    ensures Split(s, sep) == [s]
    decreases |s|
  {
    if |s| > 0 {
      SplitWithoutSep(s[1..], sep);
      assert [s[0]] + s[1..] == s;
    }
  }

  /** Splitting around one separator splits each side independently. */
  lemma {:induction false} SplitAround(a: string, b: string, sep: char)
    ensures Split(a + [sep] + b, sep) == Split(a, sep) + Split(b, sep)
    decreases |a|
  {
    var s := a + [sep] + b;
    if |a| == 0 {
      assert s == [sep] + b;
      assert s[1..] == b;
    } else {
      assert s[1..] == a[1..] + [sep] + b;
      SplitAround(a[1..], b, sep);
    }
  }

  /** Splitting undoes joining when no field holds the separator. */
  lemma {:induction false} SplitJoin(fields: seq<string>, sep: char)
    requires |fields| >= 1
    requires forall i :: 0 <= i < |fields| ==> sep !in fields[i]
    ensures Split(Join(fields, sep), sep) == fields
    decreases |fields|
  {
    if |fields| == 1 {
      SplitWithoutSep(fields[0], sep);
    } else {
      calc {
        Split(Join(fields, sep), sep);
        Split(fields[0] + [sep] + Join(fields[1..], sep), sep);
        { SplitAround(fields[0], Join(fields[1..], sep), sep); }
        Split(fields[0], sep) + Split(Join(fields[1..], sep), sep);
        { SplitWithoutSep(fields[0], sep); SplitJoin(fields[1..], sep); }
        [fields[0]] + fields[1..];
        fields;
      }
    }
  }
}

=== FILE: naming.dfy ===
/** The two file names the writer builds: the dated active file
    (`logFileNameFormat`, file_writer.go line 17) and the numbered slot a
    size rotation renames it to (line 111). */
module Naming {
  import opened Strconv
  import opened Fmt
  import Paths

  /** A calendar date as `time.Time.Date` returns it. */
  datatype Date = Date(year: int, month: int, day: int)

  /** `time.Time.Date` always gives a month in 1..12 and a day in 1..31. */
  predicate ValidDate(d: Date) {
    1 <= d.month <= 12 && 1 <= d.day <= 31
  }

  /** Years that `%4d` prints in exactly four characters. */
  predicate FourDigitYear(d: Date) {
    0 <= d.year <= 9999
  }

  /** The `%4d-%02d-%02d` part of the dated name. */
  function DateStamp(d: Date): (r: string)
    ensures '.' !in r && '/' !in r
  {
    var y, m, e := Padded(d.year, 4), ZeroPadded(d.month, 2), ZeroPadded(d.day, 2);
    JoinedPlain(y, m, e);
    y + "-" + m + "-" + e
  }

  /** Joining fields without '.' or '/' by dashes adds neither. */
  lemma JoinedPlain(y: string, m: string, e: string)
    requires '.' !in y && '/' !in y && '.' !in m && '/' !in m && '.' !in e && '/' !in e
    ensures var r := y + "-" + m + "-" + e; '.' !in r && '/' !in r
  {
  }

  /** A valid date with a four-digit year prints in exactly ten characters. */
  lemma DateStampLength(d: Date)
    requires ValidDate(d) && FourDigitYear(d)
    ensures |DateStamp(d)| == 10
  {
    FieldWidths(d);
  }

  /** The month and day of a valid date fill their two columns exactly, and
      so does a four-digit year its four. */
  lemma FieldWidths(d: Date)
    ensures ValidDate(d) ==> |ZeroPadded(d.month, 2)| == 2 && |ZeroPadded(d.day, 2)| == 2
    ensures ValidDate(d) && FourDigitYear(d) ==> |Padded(d.year, 4)| == 4
  {
    assert Pow10(2) == 100;
    assert Pow10(4) == 10000;
    if ValidDate(d) {
      NatToStringLength(d.month, 2);
      NatToStringLength(d.day, 2);
    }
    if ValidDate(d) && FourDigitYear(d) {
      NatToStringLength(d.year, 4);
    }
  }

  /** Different valid dates give different stamps. The month and day take
      the last five characters, so the year is what comes before them, and
      `%4d` is injective for every year. */
  lemma DateStampInjective(d1: Date, d2: Date)
    requires ValidDate(d1) && ValidDate(d2)
    ensures DateStamp(d1) == DateStamp(d2) ==> d1 == d2
  {
    if DateStamp(d1) != DateStamp(d2) {
      return;
    }
    var y1, y2 := Padded(d1.year, 4), Padded(d2.year, 4);
    var m1, m2 := ZeroPadded(d1.month, 2), ZeroPadded(d2.month, 2);
    var e1, e2 := ZeroPadded(d1.day, 2), ZeroPadded(d2.day, 2);
    FieldWidths(d1);
    FieldWidths(d2);
    StampFields(y1, m1, e1);
    StampFields(y2, m2, e2);
    assert y1 == y2 && m1 == m2 && e1 == e2;
    PaddedInjective(d1.year, d2.year, 4);
  }

  /** Where the three fields sit in a stamp whose month and day take two
      characters each. */
  lemma StampFields(y: string, m: string, e: string)
    requires |m| == 2 && |e| == 2
    ensures var r := y + "-" + m + "-" + e;
      |r| == |y| + 6 && r[..|y|] == y && r[|y| + 1..|y| + 3] == m && r[|y| + 4..] == e
  {
  }

  /** What `fmt.Sprintf(logFileNameFormat, ...)` appends to the base name: a
      dot, the date stamp and the ".log" extension. */
  function DateSuffix(d: Date): (r: string)
    ensures |r| >= 5 && r[0] == '.' && r[1..|r| - 4] == DateStamp(d) && r[|r| - 4..] == ".log"
    ensures '/' !in r
  {
    Enclose(DateStamp(d));
    "." + DateStamp(d) + ".log"
  }

  /** Where a field sits between a leading dot and a ".log" extension. */
  lemma Enclose(s: string)
    requires '/' !in s
    ensures var r := "." + s + ".log";
      |r| >= 5 && r[0] == '.' && r[1..|r| - 4] == s && r[|r| - 4..] == ".log" && '/' !in r
  {
  }

  /** `fmt.Sprintf(logFileNameFormat, fileName, y, m, d)`: the base name
      followed by the dated suffix. */
  function DatedName(fileName: string, d: Date): (r: string)
    ensures |r| >= |fileName| + 5 && r[..|fileName|] == fileName
  {
    var r := fileName + DateSuffix(d);
    assert r[..|fileName|] == fileName;
    r
  }

  /** The dated name starts with the base name and a dot and ends with
      ".log"; for a valid date with a four-digit year it is fifteen
      characters longer than the base name. */
  lemma DatedNameShape(fileName: string, d: Date)
    ensures var r := DatedName(fileName, d);
      |r| >= |fileName| + 5 && r[..|fileName| + 1] == fileName + "." && r[|r| - 4..] == ".log"
    ensures ValidDate(d) && FourDigitYear(d) ==> |DatedName(fileName, d)| == |fileName| + 15
  {
    var t := DateSuffix(d);
    assert DatedName(fileName, d) == fileName + t;
    Attach(fileName, t);
    if ValidDate(d) && FourDigitYear(d) {
      DateStampLength(d);
      assert |t| == 15;
    }
  }

  /** Appending a dotted ".log" suffix keeps the name and its dot in front
      and the extension at the end. */
  lemma Attach(name: string, t: string)
    requires |t| >= 5 && t[0] == '.' && t[|t| - 4..] == ".log"
    ensures var r := name + t;
      r[..|name| + 1] == name + "." && r[|r| - 4..] == ".log"
  {
    var r := name + t;
    assert r[..|name| + 1] == name + [t[0]];
    assert r[|r| - 4..] == t[|t| - 4..];
  }

  /** For a fixed base name, each date has its own file: the daily rotation
      never reopens an earlier day's file. */
  lemma DatedNameInjective(fileName: string, d1: Date, d2: Date)
    requires ValidDate(d1) && ValidDate(d2)
    ensures DatedName(fileName, d1) == DatedName(fileName, d2) ==> d1 == d2
  {
    if DatedName(fileName, d1) != DatedName(fileName, d2) {
      return;
    }
    var t1, t2 := DateSuffix(d1), DateSuffix(d2);
    Cancel(fileName, t1, t2);
    assert DateStamp(d1) == t1[1..|t1| - 4];
    DateStampInjective(d1, d2);
  }

  /** A common prefix cancels. */
  lemma Cancel(p: string, a: string, b: string)
    requires p + a == p + b
    ensures a == b
  {
    assert a == (p + a)[|p|..];
  }

  /** The dated name keeps the directory of the base name and extends its
      last path element. */
  lemma DatedNamePath(fileName: string, d: Date)
    ensures Paths.Base(DatedName(fileName, d)) == Paths.Base(fileName) + DateSuffix(d)
    ensures Paths.Dir(DatedName(fileName, d)) == Paths.Dir(fileName)
  {
    Paths.AppendToBase(fileName, DateSuffix(d));
  }

  /** `fmt.Sprintf("%s.full.%d.log", filePath, n)`: the slot a size rotation
      moves the active file to. The name always ends in ".log". */
  function RotatedName(filePath: string, n: int): (r: string)
    ensures |r| > |filePath| + 6 && r[..|filePath| + 6] == filePath + ".full."
    ensures r[|r| - 4..] == ".log"
    ensures r != filePath
  {
    filePath + ".full." + Itoa(n) + ".log"
  }

  /** Different slot numbers give different names. */
  lemma RotatedNameInjective(filePath: string, a: int, b: int)
    requires RotatedName(filePath, a) == RotatedName(filePath, b)
    ensures a == b
  {
    var k := |filePath| + 6;
    var ra, rb := RotatedName(filePath, a), RotatedName(filePath, b);
    assert |Itoa(a)| == |Itoa(b)|;
    assert Itoa(a) == ra[k..k + |Itoa(a)|];
    assert Itoa(b) == rb[k..k + |Itoa(b)|];
    ItoaInjective(a, b);
  }

  /** A slot sits in the same directory as the active file, and its base
      name extends the active file's base name. */
  lemma RotatedNamePath(filePath: string, n: int)
    ensures Paths.Base(RotatedName(filePath, n)) == Paths.Base(filePath) + (".full." + Itoa(n) + ".log")
    ensures Paths.Dir(RotatedName(filePath, n)) == Paths.Dir(filePath)
  {
    var t := ".full." + Itoa(n) + ".log";
    assert '/' !in t;
    assert RotatedName(filePath, n) == filePath + t;
    Paths.AppendToBase(filePath, t);
  }
}

=== FILE: paths.dfy ===
/** Slash-separated path names, as Go's `path.Dir` and `path.Base` read
    them for clean paths (no trailing or doubled slashes). */
module Paths {

  /** Position of the last '/' in `p`, or -1 when there is none. */
  function LastSlash(p: string): (i: int)
    ensures -1 <= i < |p|
    ensures 0 <= i ==> p[i] == '/'
    ensures forall j :: i < j < |p| ==> p[j] != '/'
  {
    if |p| == 0 then -1
    else if p[|p| - 1] == '/' then |p| - 1
    else LastSlash(p[..|p| - 1])
  }

  /** `path.Dir`: everything before the last '/', "/" for a name at the
      root, and "." for a name without any '/'. */
  function Dir(p: string): (d: string)
    ensures '/' !in p ==> d == "."
    ensures LastSlash(p) == 0 ==> d == "/"
    ensures LastSlash(p) > 0 ==> p == d + "/" + Base(p)
  {
    var i := LastSlash(p);
    if i < 0 then "."
    else if i == 0 then "/"
    else
      assert p == p[..i] + [p[i]] + p[i + 1..];
      p[..i]
  }

  /** `path.Base`: the name after the last '/'. */
  function Base(p: string): (b: string)
    ensures '/' !in b
    ensures |b| <= |p| && p[|p| - |b|..] == b
    ensures '/' !in p ==> b == p
    ensures |b| < |p| ==> p[|p| - |b| - 1] == '/'
  {
    p[LastSlash(p) + 1..]
  }

  /** Appending a slash-free suffix extends the base name and keeps the
      directory. */
  lemma AppendToBase(p: string, t: string)
    requires '/' !in t
    ensures Base(p + t) == Base(p) + t
    ensures Dir(p + t) == Dir(p)
  {
    var i := LastSlash(p);
    LastSlashAppend(p, t);
    assert (p + t)[i + 1..] == p[i + 1..] + t;
    if i > 0 {
      assert (p + t)[..i] == p[..i];
    }
  }

  /** A slash-free suffix does not move the last '/'. */
  lemma {:induction false} LastSlashAppend(p: string, t: string)
    requires '/' !in t
    ensures LastSlash(p + t) == LastSlash(p)
    decreases |t|
  {
    if |t| == 0 {
      assert p + t == p;
    } else {
      var u := t[..|t| - 1];
      assert (p + t)[..|p + t| - 1] == p + u;
      assert (p + t)[|p + t| - 1] == t[|t| - 1];
      LastSlashAppend(p, u);
    }
  }
}

=== FILE: scanner.dfy ===
/** The sibling scan inside the check loop (file_writer.go lines 89-108):
    a pass over the names of a directory listing that counts the names
    holding a pattern and tracks the smallest and largest slot number read
    from the fifth dot-separated field. */
module Scanner {
  import opened GoStrings
  import opened Strconv
  import Paths
  import opened Naming

  /** `var minNum = 1000000`. */
  const InitialMin: int := 1000000
  /** `var maxNum = 0`. */
  const InitialMax: int := 0

  /** What the scan leaves in `minNum`, `maxNum` and `totalNum`. */
  datatype Siblings = Siblings(minIndex: int, maxIndex: int, total: nat)

  /** The result of scanning a listing in which nothing matched. */
  const Empty: Siblings := Siblings(InitialMin, InitialMax, 0)

  /** `strings.Split(name, ".")`. */
  function Fields(name: string): seq<string> {
    Split(name, '.')
  }

  /** `len(s) > 5`: the name has a fifth field to read a slot number from. */
  predicate HasIndexField(name: string) {
    |Fields(name)| > 5
  }

  /** The field a slot number is read from: the fifth one, `s[4]`, as
      file_writer.go reads it, or the one before the ".log" extension,
      `s[len(s)-2]`, which is where `%s.full.%d.log` puts the number
      whatever the number of dots in the active name. */
  datatype SlotField = FieldFour | NextToLast

  /** `strconv.Atoi` of the slot field with the error dropped: a field that
      is not a numeral reads as 0. */
  function IndexOf(name: string, field: SlotField): (n: int)
    requires HasIndexField(name)
    ensures InInt64(n)
  {
    var fs := Fields(name);
    Atoi(if field == FieldFour then fs[4] else fs[|fs| - 2])
  }

  /** A name that is counted and also moves `minNum` and `maxNum`. */
  predicate Indexed(name: string, pattern: string) {
    Contains(name, pattern) && HasIndexField(name)
  }

  /** The positions of `entries` whose names hold `pattern`. */
  function MatchingPositions(entries: seq<string>, pattern: string): set<int> {
    set i | 0 <= i < |entries| && Contains(entries[i], pattern)
  }

  /** One iteration of the scan loop. */
  function Observe(acc: Siblings, name: string, pattern: string, field: SlotField): Siblings
  {
    if !Contains(name, pattern) then acc
    else if !HasIndexField(name) then acc.(total := acc.total + 1)
    else
      var n := IndexOf(name, field);
      Siblings(if n < acc.minIndex then n else acc.minIndex,
               if n > acc.maxIndex then n else acc.maxIndex,
               acc.total + 1)
  }

  /** The whole loop over a listing, in listing order. Both bounds stay
      int64 values, `minNum` never rises above its start and `maxNum` never
      falls below its start. */
  function Scan(entries: seq<string>, pattern: string, field: SlotField): (r: Siblings)
    ensures InInt64(r.minIndex) && r.minIndex <= InitialMin
    ensures InInt64(r.maxIndex) && InitialMax <= r.maxIndex
    decreases |entries|
  {
    if |entries| == 0 then Empty
    else
      var k := |entries| - 1;
      Observe(Scan(entries[..k], pattern, field), entries[k], pattern, field)
  }

  /** `totalNum` counts every matching name, including those too short to
      carry a slot number. */
  lemma {:induction false} ScanCounts(entries: seq<string>, pattern: string, field: SlotField)
    ensures Scan(entries, pattern, field).total == |MatchingPositions(entries, pattern)|
    decreases |entries|
  {
    if |entries| == 0 {
      assert MatchingPositions(entries, pattern) == {};
    } else {
      ScanCounts(entries[..|entries| - 1], pattern, field);
      CountStep(entries, pattern);
    }
  }

  /** Every slot number read lies between the final `minNum` and `maxNum`. */
  lemma {:induction false} ScanBounds(entries: seq<string>, pattern: string, field: SlotField)
    ensures var r := Scan(entries, pattern, field);
      forall i :: 0 <= i < |entries| && Indexed(entries[i], pattern) ==>
        r.minIndex <= IndexOf(entries[i], field) <= r.maxIndex
    decreases |entries|
  {
    if |entries| > 0 {
      var k := |entries| - 1;
      ScanBounds(entries[..k], pattern, field);
      assert forall i :: 0 <= i < k ==> entries[..k][i] == entries[i];
    }
  }

  /** A bound that moved from its start is the slot number of some name:
      `maxNum` is the largest slot number read or 0, and `minNum` the
      smallest or 1000000, whichever is further out. */
  lemma {:induction false} ScanAttained(entries: seq<string>, pattern: string, field: SlotField)
    ensures var r := Scan(entries, pattern, field);
      r.minIndex == InitialMin ||
        exists i :: 0 <= i < |entries| && Indexed(entries[i], pattern) && IndexOf(entries[i], field) == r.minIndex
    ensures var r := Scan(entries, pattern, field);
      r.maxIndex == InitialMax ||
        exists i :: 0 <= i < |entries| && Indexed(entries[i], pattern) && IndexOf(entries[i], field) == r.maxIndex
    decreases |entries|
  {
    if |entries| > 0 {
      var k := |entries| - 1;
      ScanAttained(entries[..k], pattern, field);
      assert forall i :: 0 <= i < k ==> entries[..k][i] == entries[i];
    }
  }

  /** Adding one name to the listing adds one to the count exactly when the
      name matches. */
  lemma CountStep(entries: seq<string>, pattern: string)
    requires |entries| > 0
    ensures var k := |entries| - 1;
      |MatchingPositions(entries, pattern)| ==
        |MatchingPositions(entries[..k], pattern)| + (if Contains(entries[k], pattern) then 1 else 0)
  {
    var k := |entries| - 1;
    var all, front := MatchingPositions(entries, pattern), MatchingPositions(entries[..k], pattern);
    forall i | 0 <= i < k
      ensures i in all <==> i in front
    {
      assert entries[..k][i] == entries[i];
    }
    assert forall i :: i in front ==> 0 <= i < k;
    if Contains(entries[k], pattern) {
      assert all == front + {k};
    } else {
      assert all == front;
    }
  }

  /** A listing in which nothing carries a slot number leaves both bounds at
      their starting values. */
  lemma {:induction false} NoIndexedKeepsBounds(entries: seq<string>, pattern: string, field: SlotField)
    requires forall i :: 0 <= i < |entries| ==> !Indexed(entries[i], pattern)
    ensures Scan(entries, pattern, field).minIndex == InitialMin
    ensures Scan(entries, pattern, field).maxIndex == InitialMax
    ensures NextIndex(Scan(entries, pattern, field).maxIndex) == 1
  {
    ScanAttained(entries, pattern, field);
  }

  /** When every name that moves the bounds reads the same number `c`, each
      bound ends at its start value or at `c`. */
  lemma UniformReading(entries: seq<string>, pattern: string, field: SlotField, c: int)
    requires forall i :: 0 <= i < |entries| && Indexed(entries[i], pattern) ==> IndexOf(entries[i], field) == c
    ensures var r := Scan(entries, pattern, field);
      (r.minIndex == InitialMin || r.minIndex == c) && (r.maxIndex == InitialMax || r.maxIndex == c)
  {
    ScanAttained(entries, pattern, field);
  }

  /** `maxNum+1` on Go's 64-bit `int`: the successor, wrapping from the
      largest int64 to the smallest. */
  function NextIndex(max: int): (n: int)
    requires InInt64(max)
    ensures InInt64(n)
    ensures (n - (max + 1)) % 0x1_0000_0000_0000_0000 == 0
  {
    if max == MaxInt64 then MinInt64 else max + 1
  }

  /** The slot the rotation retires is never the slot it fills, unless the
      slot number wrapped around. */
  lemma RetiredIsNotTarget(entries: seq<string>, pattern: string, field: SlotField)
    requires Scan(entries, pattern, field).maxIndex < MaxInt64
    ensures Scan(entries, pattern, field).minIndex != NextIndex(Scan(entries, pattern, field).maxIndex)
  {
    var r := Scan(entries, pattern, field);
    ScanAttained(entries, pattern, field);
    ScanBounds(entries, pattern, field);
    if r.minIndex != InitialMin {
      var i :| 0 <= i < |entries| && Indexed(entries[i], pattern) && IndexOf(entries[i], field) == r.minIndex;
      assert r.minIndex <= r.maxIndex;
    } else if r.maxIndex != InitialMax {
      var i :| 0 <= i < |entries| && Indexed(entries[i], pattern) && IndexOf(entries[i], field) == r.maxIndex;
      assert r.minIndex <= r.maxIndex;
    }
  }

  /** A pattern holding a '/' matches no bare directory entry, so the scan
      finds nothing at all. */
  lemma {:induction false} SlashPatternMatchesNothing(entries: seq<string>, pattern: string, field: SlotField)
    requires '/' in pattern
    requires forall i :: 0 <= i < |entries| ==> '/' !in entries[i]
    ensures Scan(entries, pattern, field) == Empty
    decreases |entries|
  {
    if |entries| > 0 {
      var k := |entries| - 1;
      assert forall i :: 0 <= i < k ==> entries[..k][i] == entries[i];
      SlashPatternMatchesNothing(entries[..k], pattern, field);
      NotContainsMissingChar(entries[k], pattern, '/');
    }
  }

  /** The three fields of "full.<digits>.log". */
  lemma SlotFields(digits: string)
    requires '.' !in digits
    ensures Split("full" + "." + digits + "." + "log", '.') == ["full", digits, "log"]
  {
    assert "full" + "." + digits + "." + "log" == "full" + ("." + digits + ".log");
    DatedFields("full", digits);
    assert '.' !in "full";
    SplitWithoutSep("full", '.');
  }

  /** Appending ".full.<digits>.log" appends three fields. */
  lemma SlotNameFields(base: string, digits: string)
    requires '.' !in digits
    ensures Fields(base + (".full." + digits + ".log")) == Fields(base) + ["full", digits, "log"]
  {
    var tail := "full" + "." + digits + "." + "log";
    var name := base + (".full." + digits + ".log");
    assert name == base + ['.'] + tail;
    SplitAround(base, tail, '.');
    SlotFields(digits);
    assert Fields(name) == Fields(base) + Split(tail, '.');
  }

  /** When the active base name has at least the three fields of
      `<name>.<stamp>.log`, each of its slots holds the base-name pattern,
      has an index field, and reads back from the field before ".log" as the
      slot number it was printed from. Field 4 reads it back too when the
      base name has exactly three fields. */
  lemma RotatedBaseReadsBack(base: string, n: int)
    requires |Fields(base)| >= 3
    requires InInt64(n)
    ensures var entry := base + (".full." + Itoa(n) + ".log");
      Indexed(entry, base + ".full.") && IndexOf(entry, NextToLast) == n &&
      (|Fields(base)| == 3 ==> IndexOf(entry, FieldFour) == n)
  {
    var digits := Itoa(n);
    var entry := base + (".full." + digits + ".log");
    SlotNameFields(base, digits);
    assert Fields(entry)[|Fields(entry)| - 2] == digits;
    assert |Fields(base)| == 3 ==> Fields(entry)[4] == digits;
    assert entry == base + ".full." + (digits + ".log");
    ContainsPrefix(base + ".full.", digits + ".log");
    AtoiItoa(n);
  }

  /** With a dot in the writer's `fileName`, the active base name has four
      or more fields and field 4 of every slot name is the same string,
      "full" or a piece of the active name, so every slot reads the same
      number whatever number it was printed with. */
  lemma DottedBaseReadsFieldFour(base: string, n: int)
    requires |Fields(base)| >= 4
    ensures var entry := base + (".full." + Itoa(n) + ".log");
      HasIndexField(entry) && IndexOf(entry, FieldFour) == Atoi((Fields(base) + ["full"])[4])
  {
    var digits := Itoa(n);
    SlotNameFields(base, digits);
    assert (Fields(base) + ["full", digits, "log"])[4] == (Fields(base) + ["full"])[4];
  }

  /** The dated name's base name splits into the fields of `fileName`'s base
      name followed by the stamp and "log": at least three fields, and
      exactly three when `fileName`'s base name has no '.'. */
  lemma DatedNameFields(fileName: string, d: Date)
    ensures Fields(Paths.Base(DatedName(fileName, d))) == Fields(Paths.Base(fileName)) + [DateStamp(d), "log"]
    ensures |Fields(Paths.Base(DatedName(fileName, d)))| >= 3
    ensures '.' !in Paths.Base(fileName) ==> |Fields(Paths.Base(DatedName(fileName, d)))| == 3
  {
    var a := Paths.Base(fileName);
    DatedNamePath(fileName, d);
    DatedFields(a, DateStamp(d));
    if '.' !in a {
      SplitWithoutSep(a, '.');
    }
  }

  /** Appending `.<stamp>.log` appends two fields when the stamp holds no
      dot. */
  lemma DatedFields(a: string, stamp: string)
    requires '.' !in stamp
    ensures Fields(a + ("." + stamp + ".log")) == Fields(a) + [stamp, "log"]
  {
    var fs := [stamp, "log"];
    var tail := stamp + "." + "log";
    assert fs[1..] == ["log"];
    assert Join(fs, '.') == tail;
    assert '.' !in "log";
    assert forall i :: 0 <= i < |fs| ==> '.' !in fs[i];
    SplitJoin(fs, '.');
    assert a + ("." + stamp + ".log") == a + ['.'] + tail;
    SplitAround(a, tail, '.');
  }
}

=== FILE: strconv.dfy ===
/** Decimal text of integers as Go's `strconv` package writes and reads it on
    a 64-bit platform: `Itoa` (also what `fmt`'s `%d` prints) and `Atoi`. */
module Strconv {

  const MaxInt64: int := 0x7fff_ffff_ffff_ffff
  const MinInt64: int := -0x8000_0000_0000_0000
  const MaxUint64: int := 0xffff_ffff_ffff_ffff

  /** The values of Go's `int` and `int64`. */
  predicate InInt64(n: int) {
    MinInt64 <= n <= MaxInt64
  }

  predicate IsDigit(c: char) {
    '0' <= c <= '9'
  }

  predicate AllDigits(s: string) {
    forall i :: 0 <= i < |s| ==> IsDigit(s[i])
  }

  function DigitValue(c: char): nat
    requires IsDigit(c)
  {
    c as int - '0' as int
  }

  function DigitChar(d: nat): (c: char)
    requires d < 10
    ensures IsDigit(c) && DigitValue(c) == d
  {
    ('0' as int + d) as char
  }

  function Pow10(k: nat): (p: nat)
    ensures p >= 1
  {
    if k == 0 then 1 else 10 * Pow10(k - 1)
  }

  /** The number a string of decimal digits denotes, most significant digit
      first; the empty string denotes 0. */
  function Value(s: string): nat
    requires AllDigits(s)
  {
    if |s| == 0 then 0 else Value(s[..|s| - 1]) * 10 + DigitValue(s[|s| - 1])
  }

  /** The digits of `n` without leading zeros. */
  function NatToString(n: nat): (s: string)
    ensures 1 <= |s| && AllDigits(s)
    ensures Value(s) == n
    ensures s[0] == '0' ==> n == 0
  {
    if n < 10 then [DigitChar(n)]
    else
      var s := NatToString(n / 10) + [DigitChar(n % 10)];
      assert s[..|s| - 1] == NatToString(n / 10);
      s
  }

  /** A number below `10^k` takes at most `k` digits. */
  lemma {:induction false} NatToStringLength(n: nat, k: nat)
    requires 1 <= k && n < Pow10(k)
    ensures |NatToString(n)| <= k
    decreases k
  {
    if n >= 10 {
      assert k >= 2;
      NatToStringLength(n / 10, k - 1);
    }
  }

  /** `strconv.Itoa(n)`, which is also what `%d` prints: a '-' before the
      digits of a negative number. */
  function Itoa(n: int): (s: string)
    ensures 1 <= |s|
    ensures '.' !in s && '/' !in s
    ensures n >= 0 ==> AllDigits(s) && Value(s) == n
    ensures n < 0 ==> s[0] == '-' && AllDigits(s[1..]) && Value(s[1..]) == -n
    ensures n == 0 ==> s == "0"
    ensures n > 0 ==> s[0] != '0'
    ensures n < 0 ==> |s| >= 2 && s[1] != '0'
  {
    if n < 0 then
      var digits := NatToString(-n);
      DigitsArePlain(digits);
      var s := "-" + digits;
      assert s[1..] == digits;
      s
    else
      DigitsArePlain(NatToString(n));
      NatToString(n)
  }

  lemma DigitsArePlain(s: string)
    requires AllDigits(s)
    ensures '.' !in s && '/' !in s
  {
  }

  /** Distinct numbers print differently. */
  lemma ItoaInjective(a: int, b: int)
    requires Itoa(a) == Itoa(b)
    ensures a == b
  {
  }

  /** Reading a digit string left to right: the first digit carries the
      highest power of ten. */
  lemma {:induction false} ValueCons(c: char, t: string)
    requires IsDigit(c) && AllDigits(t)
    ensures AllDigits([c] + t)
    ensures Value([c] + t) == DigitValue(c) * Pow10(|t|) + Value(t)
    decreases |t|
  {
    var s := [c] + t;
    assert forall i :: 1 <= i < |s| ==> s[i] == t[i - 1];
    if |t| == 0 {
      assert s[..|s| - 1] == [];
    } else {
      var u := t[..|t| - 1];
      ValueCons(c, u);
      assert s[..|s| - 1] == [c] + u;
      assert s[|s| - 1] == t[|t| - 1];
      assert Pow10(|t|) == 10 * Pow10(|u|);
      ConsStep(DigitValue(c), Pow10(|u|), Value(u), DigitValue(t[|t| - 1]));
    }
  }

  lemma ConsStep(d: int, p: int, v: int, e: int)
    ensures (d * p + v) * 10 + e == d * (10 * p) + (v * 10 + e)
  {
  }

  /** Leading zeros do not change the value. */
  lemma {:induction false} ValueLeadingZeros(z: string, s: string)
    requires forall i :: 0 <= i < |z| ==> z[i] == '0'
    requires AllDigits(s)
    ensures AllDigits(z + s)
    ensures Value(z + s) == Value(s)
    decreases |s|
  {
    var w := z + s;
    assert forall i :: 0 <= i < |w| ==> w[i] == if i < |z| then z[i] else s[i - |z|];
    if |s| == 0 {
      ValueZeros(z);
      assert w == z;
    } else {
      ValueLeadingZeros(z, s[..|s| - 1]);
      assert w[..|w| - 1] == z + s[..|s| - 1];
    }
  }

  lemma {:induction false} ValueZeros(z: string)
    requires forall i :: 0 <= i < |z| ==> z[i] == '0'
    ensures AllDigits(z) && Value(z) == 0
    decreases |z|
  {
    if |z| > 0 {
      ValueZeros(z[..|z| - 1]);
    }
  }

  /** What `strconv.ParseUint(s, 10, 64)` reports. */
  datatype Unsigned = Num(value: nat) | SyntaxErr | RangeErr

  /** The digit loop of `strconv.ParseUint(s, 10, 64)`, continuing from the
      value `acc` read so far: a character that is not a digit is a syntax
      error, and a value beyond `MaxUint64` is a range error reported as soon
      as the digit causing it is read, before anything after it is looked at. */
  function ParseDigits(s: string, acc: nat): (r: Unsigned)
    requires acc <= MaxUint64
    ensures r.Num? ==> AllDigits(s) && acc <= r.value <= MaxUint64
    decreases |s|
  {
    if |s| == 0 then Num(acc)
    else if !IsDigit(s[0]) then SyntaxErr
    else
      var v := acc * 10 + DigitValue(s[0]);
      if v > MaxUint64 then RangeErr
      else
        var r := ParseDigits(s[1..], v);
        assert r.Num? ==> forall i :: 1 <= i < |s| ==> s[i] == s[1..][i - 1];
        r
  }

  /** On a digit string the loop computes the positional value, and fails
      exactly when that value does not fit in 64 bits. */
  lemma {:induction false} ParseDigitsValue(s: string, acc: nat)
    requires acc <= MaxUint64 && AllDigits(s)
    ensures acc * Pow10(|s|) + Value(s) <= MaxUint64 ==> ParseDigits(s, acc) == Num(acc * Pow10(|s|) + Value(s))
    ensures acc * Pow10(|s|) + Value(s) > MaxUint64 ==> ParseDigits(s, acc) == RangeErr
    decreases |s|
  {
    if |s| > 0 {
      var t := s[1..];
      var d := DigitValue(s[0]);
      var v := acc * 10 + d;
      var p := Pow10(|t|);
      var total := acc * Pow10(|s|) + Value(s);
      assert total == v * p + Value(t) by {
        assert [s[0]] + t == s;
        ValueCons(s[0], t);
        ShiftDigit(acc, d, p, Value(t));
      }
      if v <= MaxUint64 {
        assert ParseDigits(s, acc) == ParseDigits(t, v);
        ParseDigitsValue(t, v);
      } else {
        assert ParseDigits(s, acc) == RangeErr;
        assert total > MaxUint64 by {
          MulGrows(v, p);
        }
      }
    }
  }

  /** On a string that is not all digits the loop stops at the first
      character that is not a digit with a syntax error, unless the digits
      before it already overflowed. */
  lemma {:induction false} ParseDigitsStops(s: string, acc: nat)
    requires acc <= MaxUint64 && !AllDigits(s)
    ensures var k := LeadingDigitCount(s);
      ParseDigits(s, acc) == if acc * Pow10(k) + Value(s[..k]) > MaxUint64 then RangeErr else SyntaxErr
    decreases |s|
  {
    var k := LeadingDigitCount(s);
    if IsDigit(s[0]) {
      var t := s[1..];
      var d := DigitValue(s[0]);
      var v := acc * 10 + d;
      var k1 := LeadingDigitCount(t);
      var p := Pow10(k1);
      assert k == k1 + 1;
      assert s[..k] == [s[0]] + t[..k1];
      assert !AllDigits(t) by {
        var j :| 0 <= j < |s| && !IsDigit(s[j]);
        assert t[j - 1] == s[j];
      }
      var total := acc * Pow10(k) + Value(s[..k]);
      assert total == v * p + Value(t[..k1]) by {
        ValueCons(s[0], t[..k1]);
        ShiftDigit(acc, d, p, Value(t[..k1]));
      }
      if v <= MaxUint64 {
        assert ParseDigits(s, acc) == ParseDigits(t, v);
        ParseDigitsStops(t, v);
      } else {
        assert ParseDigits(s, acc) == RangeErr;
        assert total > MaxUint64 by {
          MulGrows(v, p);
        }
      }
    }
  }

  lemma MulGrows(v: nat, p: nat)
    requires p >= 1
    ensures v * p >= v
  {
  }

  lemma ShiftDigit(acc: int, d: int, p: int, rest: int)
    ensures acc * (10 * p) + (d * p + rest) == (acc * 10 + d) * p + rest
  {
  }

  /** A loop that starts from `acc` with `k` characters left stays below
      `(acc + 1) * 10^k`, so it cannot overflow when that bound fits. */
  lemma {:induction false} ParseDigitsFits(s: string, acc: nat)
    requires acc <= MaxUint64
    requires (acc + 1) * Pow10(|s|) <= MaxUint64 + 1
    ensures !ParseDigits(s, acc).RangeErr?
    decreases |s|
  {
    if |s| > 0 && IsDigit(s[0]) {
      var t := s[1..];
      var v := acc * 10 + DigitValue(s[0]);
      var p := Pow10(|t|);
      assert Pow10(|s|) == 10 * p;
      NextDigitFits(acc, DigitValue(s[0]), p, MaxUint64 + 1);
      ParseDigitsFits(t, v);
    }
  }

  /** The bound of `ParseDigitsFits` carries over to the next digit. */
  lemma NextDigitFits(acc: nat, d: nat, p: nat, bound: int)
    requires d <= 9 && p >= 1
    requires (acc + 1) * (10 * p) <= bound
    ensures (acc * 10 + d + 1) * p <= bound
    ensures acc * 10 + d + 1 <= bound
  {
    assert (acc * 10 + d + 1) * p <= (acc * 10 + 10) * p;
    assert (acc * 10 + 10) * p == (acc + 1) * (10 * p);
    MulGrows(acc * 10 + d + 1, p);
  }

  lemma {:induction false} Pow10Add(i: nat, j: nat)
    ensures Pow10(i + j) == Pow10(i) * Pow10(j)
    decreases i
  {
    if i > 0 {
      Pow10Add(i - 1, j);
    }
  }

  lemma {:induction false} Pow10Monotone(i: nat, j: nat)
    requires i <= j
    ensures Pow10(i) <= Pow10(j)
    decreases j
  {
    if i < j {
      Pow10Monotone(i, j - 1);
    }
  }

  /** What `strconv.ParseInt(s, 10, 0)` returns: the value with no error, a
      syntax error (value 0), or a range error with the value clamped to the
      nearer 64-bit bound. */
  datatype Parsed = Ok(value: int) | SyntaxError | RangeError(value: int)

  /** The digits after an optional leading sign. */
  function Magnitude(s: string): string {
    if |s| >= 1 && (s[0] == '+' || s[0] == '-') then s[1..] else s
  }

  predicate Negative(s: string) {
    |s| >= 1 && s[0] == '-'
  }

  /** An optional '+' or '-' followed by at least one decimal digit. */
  predicate Numeral(s: string) {
    |Magnitude(s)| >= 1 && AllDigits(Magnitude(s))
  }

  function NumeralValue(s: string): int
    requires Numeral(s)
  {
    if Negative(s) then -(Value(Magnitude(s)) as int) else Value(Magnitude(s))
  }

  /** How many decimal digits `s` starts with. */
  function LeadingDigitCount(s: string): (k: nat)
    ensures k <= |s| && AllDigits(s[..k])
    ensures k < |s| ==> !IsDigit(s[k])
    decreases |s|
  {
    if |s| == 0 || !IsDigit(s[0]) then 0
    else
      var k := 1 + LeadingDigitCount(s[1..]);
      assert forall i :: 1 <= i < k ==> s[..k][i] == s[1..][..k - 1][i - 1];
      k
  }

  /** The digits `ParseUint` reads before it meets the first character that
      is not a digit, or the end. */
  function DigitRun(s: string): (m: string)
    ensures AllDigits(m)
  {
    var m := Magnitude(s);
    m[..LeadingDigitCount(m)]
  }

  /** The digit loop gives up on a range error only once the digits read so
      far exceed `MaxUint64`. */
  predicate RunOverflows(s: string) {
    Value(DigitRun(s)) > MaxUint64
  }

  function Clamp64(n: int): (c: int)
    ensures InInt64(c)
    ensures InInt64(n) ==> c == n
    ensures n > MaxInt64 ==> c == MaxInt64
    ensures n < MinInt64 ==> c == MinInt64
  {
    if n > MaxInt64 then MaxInt64 else if n < MinInt64 then MinInt64 else n
  }

  /** `strconv.ParseUint(s, 10, 64)`: the empty string is a syntax error. */
  function ParseUnsigned(s: string): Unsigned
  {
    if |s| == 0 then SyntaxErr else ParseDigits(s, 0)
  }

  /** `strconv.ParseInt(s, 10, 0)` with a 64-bit `int`: strip one sign, read
      the magnitude as an unsigned number, then fit it into `int64`. The fast
      path `Atoi` takes for strings of fewer than 19 characters gives the same
      answers, since such strings cannot overflow. */
  function ParseInt(s: string): (r: Parsed)
    ensures r.Ok? <==> Numeral(s) && InInt64(NumeralValue(s))
    ensures r.Ok? ==> r.value == NumeralValue(s)
    ensures Numeral(s) && !InInt64(NumeralValue(s)) ==> r == RangeError(Clamp64(NumeralValue(s)))
    ensures r.RangeError? ==> r.value == MaxInt64 || r.value == MinInt64
    ensures !Numeral(s) ==>
      r == if RunOverflows(s) then RangeError(if Negative(s) then MinInt64 else MaxInt64) else SyntaxError
    ensures !Numeral(s) && |s| < 19 ==> r == SyntaxError
  {
    if |s| == 0 then SyntaxError
    else
      var neg := s[0] == '-';
      var m := Magnitude(s);
      ParseUnsignedValue(m);
      ParseUnsignedStops(s);
      ShortMagnitudeFits(s);
      match ParseUnsigned(m)
      case SyntaxErr => SyntaxError
      case RangeErr => RangeError(if neg then MinInt64 else MaxInt64)
      case Num(u) =>
        if !neg && u > MaxInt64 then RangeError(MaxInt64)
        else if neg && u > -MinInt64 then RangeError(MinInt64)
        else Ok(if neg then -(u as int) else u)
  }

  /** On a non-empty digit string `ParseUint` yields the positional value
      whenever it fits in 64 bits and a range error otherwise. */
  lemma ParseUnsignedValue(m: string)
    ensures |m| >= 1 && AllDigits(m) ==>
      ParseUnsigned(m) == if Value(m) <= MaxUint64 then Num(Value(m)) else RangeErr
  {
    if |m| >= 1 && AllDigits(m) {
      ParseDigitsValue(m, 0);
    }
  }

  /** On a non-numeral `ParseUint` fails with a range error exactly when
      the digits before the first non-digit overflow. */
  lemma ParseUnsignedStops(s: string)
    ensures !Numeral(s) && |Magnitude(s)| >= 1 ==>
      ParseUnsigned(Magnitude(s)) == if RunOverflows(s) then RangeErr else SyntaxErr
  {
    var m := Magnitude(s);
    if !Numeral(s) && |m| >= 1 {
      ParseDigitsStops(m, 0);
    }
  }

  lemma ShortMagnitudeFits(s: string)
    ensures |s| < 19 && |Magnitude(s)| >= 1 ==> !ParseDigits(Magnitude(s), 0).RangeErr?
  {
    var m := Magnitude(s);
    if |s| < 19 && |m| >= 1 {
      Pow10Monotone(|m|, 18);
      Pow10Eighteen();
      ParseDigitsFits(m, 0);
    }
  }

  lemma Pow10Eighteen()
    ensures Pow10(18) == 1_000_000_000_000_000_000
  {
    assert Pow10(3) == 1000;
    Pow10Add(3, 3);
    assert Pow10(6) == 1_000_000;
    Pow10Add(3, 6);
    assert Pow10(9) == 1_000_000_000;
    Pow10Add(9, 9);
  }

  /** `strconv.Atoi(s)` with its error discarded, as the writer calls it: a
      syntax error reads as 0 and an out-of-range number as the nearer 64-bit
      bound. A string that is not a numeral is a range error when the digits
      before its first non-digit already overflow, and a syntax error
      otherwise. */
  function Atoi(s: string): (n: int)
    ensures InInt64(n)
    ensures Numeral(s) ==> n == Clamp64(NumeralValue(s))
    ensures !Numeral(s) ==> n == if !RunOverflows(s) then 0 else if Negative(s) then MinInt64 else MaxInt64
    ensures !Numeral(s) && |s| < 19 ==> n == 0
  {
    match ParseInt(s)
    case Ok(v) => v
    case SyntaxError => 0
    case RangeError(v) => v
  }

  /** `Atoi` reads back every 64-bit number `Itoa` prints. */
  lemma AtoiItoa(n: int)
    requires InInt64(n)
    ensures Numeral(Itoa(n)) && NumeralValue(Itoa(n)) == n
    ensures Atoi(Itoa(n)) == n
  {
    var s := Itoa(n);
    if n >= 0 {
      assert IsDigit(s[0]);
      assert Magnitude(s) == s;
    } else {
      assert Magnitude(s) == s[1..];
    }
  }
}
